=== FILE: README.md ===
# Networked tic-tac-toe: engine, relay and client decisions in Dafny

This project models three parts of a two-player tic-tac-toe system.

- **The rules engine.** A nine-cell board, the side to move, and a winner. The winner is recorded once a line is completed and stays recorded until a reset.
- **The relay server.** It keeps a registry of connected names in insertion order and a pairing table from each name to its opponent. It forwards invitations, game starts and moves between clients, and it cleans up when a connection ends. Each step of one connection's handler is a pure function. It returns the new shared state, the messages sent, and whether the handler goes on or has closed.
- **The client controller.** It decides what a click on the board does and what each server message does. Its inputs are the controller state (mode, own symbol, user name, engine, and whether the receiving loop still runs) and the event. Its output is the new state, the protocol messages it sends, and the window effects it asks for.

Modules:

- `Common`: an optional value, distinct sequences, and removal of a name from a sequence.
- `Text`: Python's `startswith`, `split` and `join` on one separator character; `str(int)` and `int(str)`; the round trips between them.
- `GameEngine`: the engine.
- `Relay`: the server.
- `Client`: the controller.
- `Scenarios`: properties that span the relay and the client, plus a two-player session proved step by step.

Three behaviours of the code are easy to miss:

- **A taken name evicts its holder.** A second registration of a taken name does not leave the first holder untouched. The refused connection is sent ERROR:Name taken, and then its `finally` block runs with the same name (server.py:25-28, 59-67). That deletes the earlier holder, tells its partner OPPONENT_LEFT and broadcasts the new roster (`Relay.Register`, `Relay.DuplicateNameEvictsHolder`).
- **Pairings can become one-sided.** ACCEPT overwrites the entries of the acceptor and the challenger but never clears a former partner's entry (server.py:45-46). The pairing table can therefore stop being symmetric (`Relay.AcceptLeavesStalePairing`).
- **Any name is accepted.** The registration does not check the name (server.py:24-30), so the model registers any text, the empty text included.

Python behaviour is stated explicitly:

- A negative board index counts from the end. An index outside -9..8 raises IndexError, modelled as `None`.
- `split(":")[1]` raises IndexError when the field is missing. The model returns `None`, and the enclosing handler ends.
- `if opponent` is false for a missing or empty opponent.
- `int(...)` accepts an optional sign followed by ASCII digits.

`check_winner` returns the string `"Draw"` in the same position as a winning symbol. The model returns a `Verdict` datatype instead. `Client.WinnerIsNeverDrawText` shows that, with cells holding only `""`, `"X"` or `"O"`, the test `winner == "Draw"` singles out exactly the draw verdict.

## Model

| member | source | states |
|---|---|---|
| GameEngine.Fresh | game_engine.py:2-5 | a new engine has nine empty cells, X to move and no winner |
| GameEngine.Reset | game_engine.py:7-10 | reset yields the same state as a new engine, whatever the state before |
| GameEngine.ResolveIndex | game_engine.py:14 | Python list indexing: defined exactly for -n..n-1; a negative index selects the cell congruent to it modulo n |
| GameEngine.MakeMove | game_engine.py:12-17 | the move is accepted iff the cell is empty and no winner is recorded; on success only that cell changes and it holds the symbol; on refusal the engine is unchanged; an index outside -9..8 raises |
| GameEngine.SwitchTurn | game_engine.py:19-20 | the side to move becomes O exactly when it was X, and X for every other value; board and winner untouched |
| GameEngine.ScanLines | game_engine.py:30-33 | the scan returns the first complete line at or after its start, or reports that none is complete |
| GameEngine.CheckWinner | game_engine.py:22-38 | Won iff some line is complete, with the first complete line in list order and its cell content as symbol, recorded as winner; Draw iff no line is complete and no cell is empty; otherwise Undecided; the state changes only on a win |
| GameEngine.FilledAmongUpdate | game_engine.py:14-15 | filling an empty cell raises the count of filled cells among the first n by one exactly when the cell is among them |
| GameEngine.MoveFillsOneCell | game_engine.py:14-16 | an accepted move of a non-empty symbol raises the number of filled cells by exactly one |
| GameEngine.FullBoard | game_engine.py:35 | nine filled cells iff no cell is empty |
| GameEngine.WinnerLatches | game_engine.py:14 | once a winner is recorded, any run of moves, switches and checks keeps a winner recorded and keeps the board, and every move is refused |
| GameEngine.WinLatches | game_engine.py:31-33 | a completed line records a winner, after which every move is refused |
| GameEngine.DrawRecordsNoWinner | game_engine.py:35-36 | a draw leaves the winner unset and happens only on a board with all nine cells filled |
| GameEngine.SwitchTwice | game_engine.py:19-20 | switching twice from X or O gives back the same engine |
| Text.Split | run_client.py:124 | Python's split on one separator: at least one piece, and no piece contains the separator; JoinSplit and SplitJoin make it the inverse of Join |
| Text.Join | server.py:13 | Python's join: the text starts with the first part; SplitJoin recovers the parts when they are free of the separator |
| Text.Field | server.py:39 | the k-th field exists iff the text has more than k fields, and it holds no separator |
| Text.FieldOfJoin | server.py:39 | the k-th field of separator-free parts joined by the separator is the k-th part |
| Text.SplitJoin | run_client.py:124 | splitting a comma-joined list of comma-free names gives back the list |
| Text.JoinSplit | server.py:13 | joining the fields of a split gives back the text |
| Text.IntToString | run_client.py:75 | the decimal text of an integer: digits only for a non-negative one, a minus sign and digits for a negative one; never a colon or a comma |
| Text.ParseInt | run_client.py:140 | a value is read iff the text is ASCII digits with an optional leading sign; a minus sign gives a value of at most zero |
| Text.ParseIntToString | run_client.py:140 | reading back the decimal text of an integer gives that integer |
| Common.Without | run_client.py:125 | the kept entries are exactly those of the input other than the removed name |
| Common.WithoutConcat | run_client.py:125 | removal works piece by piece, so the kept entries stay in their order and keep their repetitions |
| Common.WithoutSingle | run_client.py:125 | on a single entry, removal drops it exactly when it is the removed name; with WithoutConcat this fixes the result on every list |
| Common.WithoutDistinct | server.py:61 | deleting a name keeps a registry without duplicates free of them |
| Relay.RosterMessage | server.py:13 | the roster message starts with LIST |
| Relay.RosterFields | server.py:12-13 | splitting the roster message on commas gives LIST followed by the comma-free names in registration order |
| Relay.Broadcast | server.py:10-17 | one roster message per registered name, in registration order, each carrying LIST, and the names joined by commas |
| Relay.BroadcastReachesEachOnce | server.py:12-17 | with no name registered twice, each registered name receives the roster exactly once and any other name receives nothing |
| Relay.DeliverBroadcast | server.py:15-19 | when sends to some sockets fail, every other registered client still receives the roster, and only registered clients receive it; with no failure the delivery is exactly the broadcast |
| Relay.Cleanup | server.py:59-67 | a registered name is removed; a non-empty opponent still registered is told OPPONENT_LEFT and both pairing entries go, otherwise the pairings stay; the remaining roster is broadcast; an unregistered name changes nothing |
| Relay.CleanupSentTo | server.py:60-67 | what each name receives from a cleanup: OPPONENT_LEFT for the notified partner, then the new roster for every remaining name |
| Relay.DisconnectNotifiesNoOneElse | server.py:60-67 | no one but the partner is told OPPONENT_LEFT, the leaving name receives nothing, and the partner receives the notice before the roster |
| Relay.Register | server.py:24-32 | a new name is appended and the roster is broadcast to all, newcomer included; a taken name is refused with ERROR:Name taken, and the cleanup then removes the earlier holder |
| Relay.HandleInvite | server.py:38-41 | INVITE_FROM with the sender's name goes to the target only when the target is registered; the state never changes |
| Relay.HandleAccept | server.py:43-49 | the acceptor and the challenger are recorded as each other's opponents and all other entries are kept; the acceptor is told it plays O and the challenger that it plays X; a missing acceptor raises and the handler closes without sending; a missing challenger raises after the acceptor's message, and the cleanup then broadcasts the roster without the acceptor |
| Relay.HandleMove | server.py:51-55 | the move text is forwarded verbatim to a non-empty recorded opponent; with no opponent nothing happens; an unregistered opponent raises and the handler closes with exactly the cleanup's state and sends |
| Relay.Handle | server.py:34-55 | an empty read closes the handler, which runs the cleanup; INVITE:, ACCEPT: and MOVE: go to their handlers with the second colon field as argument; any other text is ignored; no name is ever registered twice |
| Relay.CommandDispatch | server.py:38-52 | a command built from its prefix and a colon-free argument reaches its handler with exactly that argument |
| Relay.Close | server.py:59-68 | leaving the handler keeps what was already sent and then runs exactly the cleanup: its state, its OPPONENT_LEFT notice and its broadcast; the connection is closed, its name is gone, no name is registered twice |
| Relay.Disconnect | server.py:57-67 | a failed read runs exactly the cleanup: OPPONENT_LEFT to a registered partner, the pairings cleared, the roster broadcast; the name is gone, every other name stays, and the registry shrinks by one |
| Relay.AcceptLeavesStalePairing | server.py:45-46 | after a third client accepts a paired player's challenge, the former partner still points at that player: the pairing table is not symmetric |
| Relay.DuplicateNameEvictsHolder | server.py:25-28 | registering a taken name removes the earlier holder and tells its partner OPPONENT_LEFT |
| Client.Initial | run_client.py:12-19 | the controller starts local, playing X, without a name, with a new engine, receiving |
| Client.ClipFor | run_client.py:87-99 | the draw clip iff the game is drawn; the win clip iff the winner is this player's symbol; the lose clip otherwise |
| Client.Settle | run_client.py:70-111 | after an accepted move: the engine's board holds the move and its winner is the win check's; MOVE with the index is sent only for a local click online; the turn switches iff the game is undecided; the window is told of the move, then of the ending |
| Client.Ending | run_client.py:82-113 | no game-over popup while the game goes on; otherwise exactly one popup, the last effect, with the text and clip for the verdict |
| Client.SettleShowsOnePopup | run_client.py:71-111 | an accepted move first updates the window's board; a game-over popup appears iff the game has ended, exactly once and last, with the verdict's text and clip |
| Client.HandleClick | run_client.py:64-77 | a local click out of turn online changes nothing; a refused move changes nothing and shows no game-over popup; MOVE is sent iff an online local click is accepted, and a remote move is never echoed; an accepted move places the side to move's symbol in that cell only |
| Client.GameOverText | run_client.py:87-92 | the popup text is the draw text exactly for a draw; a win text names the winning symbol |
| Client.DismissGameOver | run_client.py:107 | closing the game-over popup resets the engine and keeps the rest |
| Client.ReadRoster | run_client.py:123-126 | the roster shown is the comma fields after the first with the player's own name removed, the rest kept in order and with repetitions |
| Client.ReadInvite | run_client.py:128-130 | the player is asked about the second colon field as challenger; without it the loop ends |
| Client.ReadGameStart | run_client.py:132-137 | the player plays X iff the second field is YOU_X, else O; mode goes online with a new engine; without a second field the loop ends |
| Client.ReadOpponentMove | run_client.py:139-141 | the second field, read as an integer, is applied as a remote click; a missing field or a non-integer ends the loop |
| Client.Classify | run_client.py:120-143 | each branch of the receiving loop is taken exactly when its own test holds; no message passes two tests |
| Client.Receive | run_client.py:115-148 | each received message is handled by the branch its class selects; nothing is sent; nothing is read after the loop ends |
| Client.OnDecision | run_client.py:152-154 | ACCEPT with the sender's name is sent iff the player accepts |
| Client.InitialWellFormed | run_client.py:12-18 | the initial controller holds only "", X and O in cells, turn and own symbol |
| Client.ClickPreservesWellFormed | run_client.py:64-111 | clicks keep cells, turn, own symbol and winner within "", X and O |
| Client.ReceivePreservesWellFormed | run_client.py:115-148 | received messages keep cells, turn, own symbol and winner within "", X and O |
| Client.WinnerIsNeverDrawText | run_client.py:82-92 | in a well-formed controller a winning symbol is never the text "Draw", so the draw test is exact |
| Client.FinishedGameIgnoresClicks | run_client.py:70 | after a win or on a full board, clicks change nothing and send nothing |
| Scenarios.RosterReachesClient | server.py:13 | a roster broadcast, read by a client, shows exactly the other registered names in registration order |
| Scenarios.InviteReachesClient | run_client.py:128-130 | an INVITE_FROM as the relay builds it asks the player about exactly its sender |
| Scenarios.DecisionReachesRelay | run_client.py:152-154 | accepting sends ACCEPT with the sender's name, which the relay handles as acceptance of that sender's challenge |
| Scenarios.RelayForwardsMove | server.py:51-55 | MOVE with a colon-free text reaches the sender's registered opponent as OPPONENT_MOVE with the same text |
| Scenarios.OpponentAppliesMove | run_client.py:139-141 | OPPONENT_MOVE with the decimal text of an index is applied as a remote click on that index |
| Scenarios.MoveReachesOpponent | run_client.py:73-75 | a move clicked online is sent, relayed to the opponent and applied there as the same index |
| Scenarios.ReadRelayedGameStart | run_client.py:132-136 | a GAME_START built by the relay makes the reader play X iff its tag is YOU_X, online, with a new engine |
| Scenarios.GameStartAssignsSymbols | server.py:47-49 | after ACCEPT the challenger's client plays X and moves first, and the acceptor's client plays O |
| Scenarios.AliceRegisters | server.py:30-32 | the first registration yields a one-name registry and sends the roster to the newcomer |
| Scenarios.BobRegisters | server.py:30-32 | a second registration broadcasts the two-name roster to both clients |
| Scenarios.AliceInvitesBob | server.py:38-41 | an invitation to a registered name reaches it as INVITE_FROM with the inviter's name |
| Scenarios.BobAccepts | server.py:43-49 | accepting pairs the two names and sends each its GAME_START |
| Scenarios.AliceMoves | server.py:51-55 | a move is relayed to the paired opponent |
| Scenarios.BobLeaves | server.py:57-67 | the partner of a leaving player is told OPPONENT_LEFT and then receives the one-name roster; the pairings are cleared |

## Left out

- Sockets, the accept loop, the thread per connection and the lack of locking between threads are not modelled. Each handler step is modelled as one atomic transition on the shared state. `recv(1024)` framing and UTF-8 are left out too: each received buffer is treated as one whole message.
- Socket send failures and closed peers are not modelled, except in `Relay.DeliverBroadcast`. There, failed sends are a parameter set, as the broadcast loop catches them. Elsewhere a send is assumed to succeed.
- The window (ui_layout.py) is not part of this model. That covers the board widgets, popups, status-label text, videos and sounds. The controller only records the effects it asks for as `UiEvent` values.
- `root.after` scheduling is collapsed: a deferred effect is applied at once. The closures over `players`, `idx` and `parts` bind late, which matters only when deferral can be observed, so it is not modelled.
- `connect_mode`, `setup_network`, `send_invite`, `start_online_game` and `on_close` are left out. They are connection set-up, window changes, or a bare send with no decision in it. Only the receiving flag (`listening`) of `on_close` is kept.
- Client.Receive: only the message handling in the `try` block is modelled. A failed `recv` ends the loop, just like `StopListening`.
- Text.ParseInt: accepts an optional sign and ASCII digits only. Python's `int` also accepts surrounding whitespace, underscores between digits, and non-ASCII digits. None of these can come from the `str(int)` text that the client sends.
- The `print` logging of both programs is not modelled.

=== FILE: client.dfy ===
/**
  The client controller's decisions: what a click on the board does to the
  engine, which protocol message it sends and which result clip it asks
  for, and how each message from the server changes the controller. The
  window is reduced to a list of requested effects.
 */
module Client {
  import opened Common
  import opened Text
  import opened GameEngine

  datatype Mode = Local | Online

  /** The clip (with its sound) played in the game-over popup. */
  datatype Clip = DrawClip | WinClip | LoseClip

  /** What the controller asks of the window. */
  datatype UiEvent =
    | BoardUpdated(index: int, symbol: string)
    | WinHighlighted(line: seq<Cell>)
    | GameOver(message: string, clip: Clip)
    | LocalTurnShown(turn: string)
    | RosterShown(players: seq<string>)
    | ChallengeAsked(sender: string)
    | OnlineGameShown(opponent: string)
    | OpponentLeftShown
    | LobbyShown
      /** A scheduled callback raised (IndexError); the window reports it
          and carries on. */
    | CallbackFailed

  /** `listening` is false once the receiving loop has ended. */
  datatype Controller = Controller(
    mode: Mode, mySymbol: string, username: string, engine: Engine, listening: bool)

  /** The controller after an event, the protocol messages it sent, and the
      window effects it requested, in order. */
  datatype Reaction = Reaction(ctrl: Controller, outbound: seq<string>, ui: seq<UiEvent>)

  /** The controller as constructed: local mode, playing X, no name yet. */
  function Initial(): (c: Controller)
    ensures c.mode == Local && c.mySymbol == "X" && c.username == ""
    ensures c.engine == Fresh() && c.listening
  {
    Controller(Local, "X", "", Fresh(), true)
  }

  /** A click on this window's board is ignored while it is the other
      player's turn in an online game. */
  predicate Gated(c: Controller, remote: bool) {
    c.mode == Online && !remote && c.engine.turn != c.mySymbol
  }

  /** The click gets through the gate and the engine accepts the move. */
  predicate Accepted(c: Controller, index: int, remote: bool) {
    && !Gated(c, remote)
    && MakeMove(c.engine, index, c.engine.turn).Some?
    && MakeMove(c.engine, index, c.engine.turn).value.0
  }

  /** The clip for a finished game, as seen by the player holding `mine`. */
  function ClipFor(verdict: Verdict, mine: string): (clip: Clip)
    requires !verdict.Undecided?
    ensures clip == DrawClip <==> verdict.Draw?
    ensures clip == WinClip <==> verdict.Won? && verdict.symbol == mine
    ensures clip == LoseClip <==> verdict.Won? && verdict.symbol != mine
  {
    if verdict.Draw? then DrawClip
    else if verdict.symbol == mine then WinClip
    else LoseClip
  }

  /** The window effects that follow the board update once the win check
      has run: the next side to move in a local game while the game goes
      on; otherwise the winning line, if any, and then the one game-over
      popup with the text and clip for the verdict. */
  function Ending(c: Controller, next: Engine, verdict: Verdict): (ui: seq<UiEvent>)
    ensures verdict.Undecided? ==> forall ev :: ev in ui ==> !ev.GameOver?
    ensures !verdict.Undecided? ==>
      && |ui| >= 1
      && ui[|ui| - 1] == GameOver(GameOverText(verdict), ClipFor(verdict, c.mySymbol))
      && forall i :: 0 <= i < |ui| - 1 ==> !ui[i].GameOver?
  {
    match verdict
    case Undecided => if c.mode == Local then [LocalTurnShown(next.turn)] else []
    case Draw => [GameOver(GameOverText(verdict), ClipFor(verdict, c.mySymbol))]
    case Won(_, line) => [WinHighlighted(line), GameOver(GameOverText(verdict), ClipFor(verdict, c.mySymbol))]
  }

  /** The rest of `handle_click` once the engine has accepted the move:
      the board is redrawn with the mover's symbol, MOVE:<index> is sent
      for a local click in an online game, and the win check decides
      between passing the turn and ending the game with exactly one
      popup, carrying the clip this player should see. */
  function Settle(c: Controller, index: int, remote: bool, moved: Engine): (re: Reaction)
    ensures re.ctrl == c.(engine := re.ctrl.engine)
    ensures re.ctrl.engine.board == moved.board
    ensures re.ctrl.engine.winner == CheckWinner(moved).0.winner
    ensures re.outbound == if c.mode == Online && !remote then ["MOVE:" + IntToString(index)] else []
    ensures CheckWinner(moved).1.Undecided? ==> re.ctrl.engine.turn == SwitchTurn(moved).turn
    ensures !CheckWinner(moved).1.Undecided? ==> re.ctrl.engine.turn == moved.turn
    ensures re.ui == [BoardUpdated(index, c.engine.turn)] + Ending(c, re.ctrl.engine, CheckWinner(moved).1)
  {
    var sent := if c.mode == Online && !remote then ["MOVE:" + IntToString(index)] else [];
    var (checked, verdict) := CheckWinner(moved);
    var next := if verdict.Undecided? then SwitchTurn(checked) else checked;
    Reaction(c.(engine := next), sent, [BoardUpdated(index, c.engine.turn)] + Ending(c, next, verdict))
  }

  /** The window effects of an accepted move: the board update first, no
      game-over popup while the game goes on, and otherwise exactly one,
      last, with the text and clip for the verdict. */
  lemma SettleShowsOnePopup(c: Controller, index: int, remote: bool, moved: Engine)
    ensures var re := Settle(c, index, remote, moved);
      && |re.ui| >= 1 && re.ui[0] == BoardUpdated(index, c.engine.turn)
      && (CheckWinner(moved).1.Undecided? ==> forall ev :: ev in re.ui ==> !ev.GameOver?)
      && (!CheckWinner(moved).1.Undecided? ==>
            var verdict := CheckWinner(moved).1;
            && re.ui[|re.ui| - 1] == GameOver(GameOverText(verdict), ClipFor(verdict, c.mySymbol))
            && forall i :: 0 <= i < |re.ui| - 1 ==> !re.ui[i].GameOver?)
  {
    var re := Settle(c, index, remote, moved);
    var tail := Ending(c, re.ctrl.engine, CheckWinner(moved).1);
    assert forall i :: 1 <= i < |re.ui| ==> re.ui[i] == tail[i - 1];
  }


  /** `handle_click(index, is_remote)`. A local click in an online game is
      ignored while it is not this player's turn; otherwise the move is
      placed with the symbol of the side to move and, when the engine
      accepts it, settled; a refused move changes nothing and an index the
      board cannot take fails in the window. */
  function HandleClick(c: Controller, index: int, remote: bool): (re: Reaction)
    ensures Gated(c, remote) ==> re == Reaction(c, [], [])
    ensures re.ctrl.mode == c.mode && re.ctrl.mySymbol == c.mySymbol
    ensures re.ctrl.username == c.username && re.ctrl.listening == c.listening
    ensures remote ==> re.outbound == []
    ensures re.outbound != [] <==> c.mode == Online && !remote && Accepted(c, index, remote)
    ensures re.outbound != [] ==> re.outbound == ["MOVE:" + IntToString(index)]
    ensures !Accepted(c, index, remote) ==> re.ctrl == c
    ensures !Accepted(c, index, remote) ==> forall ev :: ev in re.ui ==> !ev.GameOver?
    ensures Accepted(c, index, remote) ==>
      var moved := MakeMove(c.engine, index, c.engine.turn).value.1;
      && re == Settle(c, index, remote, moved)
      && moved.board[ResolveIndex(index, 9).value] == c.engine.turn
      && (forall j :: 0 <= j < 9 && j != ResolveIndex(index, 9).value ==>
            moved.board[j] == c.engine.board[j])
  {
    if Gated(c, remote) then Reaction(c, [], [])
    else
      match MakeMove(c.engine, index, c.engine.turn)
      case None => Reaction(c, [], [CallbackFailed])
      case Some((ok, moved)) =>
        if !ok then Reaction(c, [], [])
        else Settle(c, index, remote, moved)
  }

  /** The popup text of a finished game. */
  function GameOverText(verdict: Verdict): (text: string)
    requires !verdict.Undecided?
    ensures text == "It's a Draw!" <==> verdict.Draw?
    ensures verdict.Won? ==>
      && |text| == 15 + |verdict.symbol|
      && text[..14] == "The winner is " && text[14..|text| - 1] == verdict.symbol
  {
    if verdict.Draw? then "It's a Draw!" else "The winner is " + verdict.symbol + "!"
  }

  /** Dismissing the game-over popup resets the engine for a new game. */
  function DismissGameOver(c: Controller): (c': Controller)
    ensures c'.engine == Fresh()
    ensures c'.mode == c.mode && c'.mySymbol == c.mySymbol && c'.username == c.username
    ensures c'.listening == c.listening
  {
    c.(engine := Reset(c.engine))
  }

  /** The receiving loop ends: no further message is read. */
  function StopListening(c: Controller): (re: Reaction)
    ensures !re.ctrl.listening && re.outbound == [] && re.ui == []
    ensures re.ctrl.engine == c.engine && re.ctrl.mode == c.mode && re.ctrl.mySymbol == c.mySymbol
  {
    Reaction(c.(listening := false), [], [])
  }

  /** LIST,<n1>,<n2>,...: the roster shown is every comma-separated field
      after the first, minus those equal to this player's own name. */
  function ReadRoster(c: Controller, msg: string): (re: Reaction)
    ensures re.ctrl == c && re.outbound == []
    ensures |re.ui| == 1 && re.ui[0].RosterShown?
    ensures re.ui[0].players == Without(Split(msg, ',')[1..], c.username)
    ensures c.username !in re.ui[0].players
    ensures forall p :: p in re.ui[0].players ==> p in Split(msg, ',')[1..]
    ensures forall i :: 1 <= i < |Split(msg, ',')| && Split(msg, ',')[i] != c.username ==>
      Split(msg, ',')[i] in re.ui[0].players
  {
    var fields := Split(msg, ',');
    var players := Without(fields[1..], c.username);
    assert forall i :: 1 <= i < |fields| ==> fields[i] == fields[1..][i - 1];
    Reaction(c, [], [RosterShown(players)])
  }

  /** INVITE_FROM:<sender>: the player is asked whether to accept the
      sender's challenge; without a second field the loop ends. */
  function ReadInvite(c: Controller, msg: string): (re: Reaction)
    ensures re.outbound == []
    ensures Field(msg, ':', 1).Some? ==> re == Reaction(c, [], [ChallengeAsked(Field(msg, ':', 1).value)])
    ensures Field(msg, ':', 1).None? ==> re == StopListening(c)
  {
    match Field(msg, ':', 1)
    case None => StopListening(c)
    case Some(sender) => Reaction(c, [], [ChallengeAsked(sender)])
  }

  /** GAME_START:<YOU_X or YOU_O>:<opponent>: this player plays X exactly
      when the second field is YOU_X, and O otherwise; the controller goes
      online with a fresh engine. Without a second field the loop ends;
      without a third, showing the game fails later in the window. */
  function ReadGameStart(c: Controller, msg: string): (re: Reaction)
    ensures re.outbound == [] && re.ctrl.username == c.username
    ensures |Split(msg, ':')| < 2 ==> re == StopListening(c)
    ensures |Split(msg, ':')| >= 2 ==>
      && (re.ctrl.mySymbol == "X" <==> Split(msg, ':')[1] == "YOU_X")
      && re.ctrl.mySymbol in {"X", "O"}
      && re.ctrl.mode == Online
      && re.ctrl.engine == Fresh()
      && re.ctrl.listening == c.listening
  {
    var parts := Split(msg, ':');
    if |parts| < 2 then StopListening(c)
    else
      var started := c.(mySymbol := if parts[1] == "YOU_X" then "X" else "O",
                        mode := Online, engine := Reset(c.engine));
      Reaction(started, [], [if |parts| >= 3 then OnlineGameShown(parts[2]) else CallbackFailed])
  }

  /** OPPONENT_MOVE:<index>: the index is read as an integer and applied
      as a remote click, which skips the turn check. A missing field or a
      text that is not an integer ends the loop. */
  function ReadOpponentMove(c: Controller, msg: string): (re: Reaction)
    ensures re.outbound == []
    ensures Field(msg, ':', 1).None? ==> re == StopListening(c)
    ensures Field(msg, ':', 1).Some? && ParseInt(Field(msg, ':', 1).value).None? ==>
      re == StopListening(c)
    ensures Field(msg, ':', 1).Some? && ParseInt(Field(msg, ':', 1).value).Some? ==>
      re == HandleClick(c, ParseInt(Field(msg, ':', 1).value).value, true)
  {
    match Field(msg, ':', 1)
    case None => StopListening(c)
    case Some(text) =>
      match ParseInt(text)
      case None => StopListening(c)
      case Some(index) => HandleClick(c, index, true)
  }

  /** The branch of the receiving loop a message takes. */
  datatype Kind = Hangup | RosterKind | InviteKind | StartKind | MoveKind | LeftKind | OtherKind

  /** The tests of the receiving loop in their order: an empty read, then
      the prefixes LIST, INVITE_FROM, GAME_START and OPPONENT_MOVE, then
      the exact text OPPONENT_LEFT. No message passes two of the tests, so
      each kind holds exactly when its own test does. */
  function Classify(msg: string): (k: Kind)
    ensures k == Hangup <==> msg == ""
    ensures k == RosterKind <==> StartsWith(msg, "LIST")
    ensures k == InviteKind <==> StartsWith(msg, "INVITE_FROM")
    ensures k == StartKind <==> StartsWith(msg, "GAME_START")
    ensures k == MoveKind <==> StartsWith(msg, "OPPONENT_MOVE")
    ensures k == LeftKind <==> msg == "OPPONENT_LEFT"
  {
    ReceivedPrefixesExclusive(msg);
    if msg == "" then Hangup
    else if StartsWith(msg, "LIST") then RosterKind
    else if StartsWith(msg, "INVITE_FROM") then InviteKind
    else if StartsWith(msg, "GAME_START") then StartKind
    else if StartsWith(msg, "OPPONENT_MOVE") then MoveKind
    else if msg == "OPPONENT_LEFT" then LeftKind
    else OtherKind
  }

  /** One received buffer, as the receiving loop of `receive_messages`
      interprets it: an empty read ends the loop; a roster, an invitation,
      a game start or an opponent's move is read by its own handler;
      OPPONENT_LEFT informs the player and returns to the lobby; anything
      else is ignored. Nothing is read once the loop has ended. */
  function Receive(c: Controller, msg: string): (re: Reaction)
    ensures !c.listening ==> re == Reaction(c, [], [])
    ensures c.listening && Classify(msg) == Hangup ==> re == StopListening(c)
    ensures c.listening && Classify(msg) == RosterKind ==> re == ReadRoster(c, msg)
    ensures c.listening && Classify(msg) == InviteKind ==> re == ReadInvite(c, msg)
    ensures c.listening && Classify(msg) == StartKind ==> re == ReadGameStart(c, msg)
    ensures c.listening && Classify(msg) == MoveKind ==> re == ReadOpponentMove(c, msg)
    ensures c.listening && Classify(msg) == LeftKind ==>
      re == Reaction(c, [], [OpponentLeftShown, LobbyShown])
    ensures c.listening && Classify(msg) == OtherKind ==> re == Reaction(c, [], [])
    ensures re.outbound == []
  {
    if !c.listening then Reaction(c, [], [])
    else
      match Classify(msg)
      case Hangup => StopListening(c)
      case RosterKind => ReadRoster(c, msg)
      case InviteKind => ReadInvite(c, msg)
      case StartKind => ReadGameStart(c, msg)
      case MoveKind => ReadOpponentMove(c, msg)
      case LeftKind => Reaction(c, [], [OpponentLeftShown, LobbyShown])
      case OtherKind => Reaction(c, [], [])
  }

  /** The prefixes the receiving loop tests never match the same message. */
  lemma ReceivedPrefixesExclusive(msg: string)
    ensures StartsWith(msg, "GAME_START") ==> !StartsWith(msg, "LIST") && !StartsWith(msg, "INVITE_FROM")
    ensures StartsWith(msg, "OPPONENT_MOVE") ==>
      && !StartsWith(msg, "LIST") && !StartsWith(msg, "INVITE_FROM") && !StartsWith(msg, "GAME_START")
    ensures msg == "OPPONENT_LEFT" ==>
      && !StartsWith(msg, "LIST") && !StartsWith(msg, "INVITE_FROM") && !StartsWith(msg, "GAME_START")
      && !StartsWith(msg, "OPPONENT_MOVE")
    ensures StartsWith(msg, "INVITE_FROM") ==> !StartsWith(msg, "LIST")
  {
    assert "GAME_START"[..4][0] == 'G';
    PrefixesExclude(msg, "LIST", "GAME_START");
    assert "INVITE_FROM"[..10][0] == 'I';
    PrefixesExclude(msg, "GAME_START", "INVITE_FROM");
    assert "INVITE_FROM"[..4][0] == 'I';
    PrefixesExclude(msg, "LIST", "INVITE_FROM");
    assert "OPPONENT_MOVE"[..4][0] == 'O';
    PrefixesExclude(msg, "LIST", "OPPONENT_MOVE");
    assert "OPPONENT_MOVE"[..11][0] == 'O';
    PrefixesExclude(msg, "INVITE_FROM", "OPPONENT_MOVE");
    assert "OPPONENT_MOVE"[..10][0] == 'O';
    PrefixesExclude(msg, "GAME_START", "OPPONENT_MOVE");
    assert "OPPONENT_LEFT"[..13][9] == 'L';
    PrefixesExclude(msg, "OPPONENT_MOVE", "OPPONENT_LEFT");
  }

  /** `on_decision` of the challenge popup: ACCEPT:<sender> is sent only if
      the player accepts. */
  function OnDecision(sender: string, accepted: bool): (outbound: seq<string>)
    ensures outbound != [] <==> accepted
    ensures accepted ==> outbound == ["ACCEPT:" + sender]
  {
    if accepted then ["ACCEPT:" + sender] else []
  }

  // ---------------------------------------------------------------------
  // Properties across events.

  /** Every symbol this controller ever places or expects is "X" or "O":
      the cells hold "", "X" or "O", the side to move and this player's
      symbol are "X" or "O", and a recorded winner is one of them. */
  predicate WellFormed(c: Controller) {
    && c.engine.turn in {"X", "O"}
    && c.mySymbol in {"X", "O"}
    && (forall i :: 0 <= i < 9 ==> c.engine.board[i] in {Blank, "X", "O"})
    && (c.engine.winner.Some? ==> c.engine.winner.value in {"X", "O"})
  }

  lemma InitialWellFormed()
    ensures WellFormed(Initial())
  {
  }

  /** Clicks keep the controller well formed. */
  lemma ClickPreservesWellFormed(c: Controller, index: int, remote: bool)
    requires WellFormed(c)
    ensures WellFormed(HandleClick(c, index, remote).ctrl)
  {
  }

  /** Received messages keep the controller well formed. */
  lemma ReceivePreservesWellFormed(c: Controller, msg: string)
    requires WellFormed(c)
    ensures WellFormed(Receive(c, msg).ctrl)
  {
    if c.listening && Classify(msg) == MoveKind {
      match Field(msg, ':', 1)
      case None =>
      case Some(text) =>
        match ParseInt(text)
        case None =>
        case Some(index) => ClickPreservesWellFormed(c, index, true);
    }
  }

  /** In a well-formed controller no cell ever holds the text "Draw", so
      the code's test `winner == "Draw"` singles out exactly the draw
      verdict and never a won line. */
  lemma WinnerIsNeverDrawText(c: Controller)
    requires WellFormed(c)
    ensures CheckWinner(c.engine).1.Won? ==> CheckWinner(c.engine).1.symbol != "Draw"
  {
  }

  /** Once the game is over (a recorded winner, or a full board), clicks,
      local or remote, change nothing and send nothing until the
      game-over popup is dismissed. */
  lemma FinishedGameIgnoresClicks(c: Controller, index: int, remote: bool)
    requires c.engine.winner.Some? || Blank !in c.engine.board
    ensures HandleClick(c, index, remote).ctrl == c
    ensures HandleClick(c, index, remote).outbound == []
  {
  }
}

=== FILE: common.dfy ===
/**
  Small shared vocabulary: an optional value and two facts about
  sequences of names (removing every copy of one name, and having no
  name twice).
 */
module Common {

  /** A value that may be absent; stands for Python's `None` and for a
      lookup or parse that raised instead of producing a value. */
  datatype Option<+T> = None | Some(value: T)

  /** No element occurs twice: the shape of the keys of a Python dict. */
  predicate Distinct<T(==)>(s: seq<T>) {
    forall i, j :: 0 <= i < j < |s| ==> s[i] != s[j]
  }

  /** `s` with every occurrence of `x` dropped and the rest kept in order:
      both `[p for p in s if p != x]` and `del d[x]` on the keys of a dict. */
  function Without<T(==)>(s: seq<T>, x: T): (r: seq<T>)
    ensures x !in r
    ensures forall i :: 0 <= i < |r| ==> r[i] in s
    ensures forall i :: 0 <= i < |s| && s[i] != x ==> s[i] in r
    ensures |r| <= |s|
    ensures x !in s ==> r == s
  {
    if |s| == 0 then []
    else if s[0] == x then Without(s[1..], x)
    else [s[0]] + Without(s[1..], x)
  }

  /** Removal works piece by piece: the order and the repetitions of the
      kept entries are those of `s`. */
  lemma {:induction false} WithoutConcat<T>(a: seq<T>, b: seq<T>, x: T)
    ensures Without(a + b, x) == Without(a, x) + Without(b, x)
    decreases |a|
  {
    if |a| == 0 {
      assert a + b == b;
    } else {
      assert (a + b)[0] == a[0];
      assert (a + b)[1..] == a[1..] + b;
      WithoutConcat(a[1..], b, x);
    }
  }

  /** On one entry, removal drops it exactly when it is `x`. */
  lemma WithoutSingle<T>(y: T, x: T)
    ensures Without([y], x) == if y == x then [] else [y]
  {
    assert [y][1..] == [];
  }

  /** Removing a name keeps a list without duplicates free of them. */
  lemma {:induction false} WithoutDistinct<T>(s: seq<T>, x: T)
    ensures Distinct(s) ==> Distinct(Without(s, x))
  {
    if |s| > 0 && Distinct(s) {
      assert Distinct(s[1..]);
      WithoutDistinct(s[1..], x);
      if s[0] != x {
        var rest := Without(s[1..], x);
        assert s[0] !in s[1..];
        assert s[0] !in rest;
        assert Without(s, x) == [s[0]] + rest;
      }
    }
  }

  /** Removing a name from a list without duplicates drops exactly one
      entry. */
  lemma {:induction false} WithoutDistinctLength<T>(s: seq<T>, x: T)
    ensures Distinct(s) && x in s ==> |Without(s, x)| == |s| - 1
  {
    if Distinct(s) && x in s {
      if s[0] == x {
        assert x !in s[1..];
      } else {
        assert x in s[1..];
        WithoutDistinctLength(s[1..], x);
      }
    }
  }
}

=== FILE: game_engine.dfy ===
/**
  The tic-tac-toe rules engine: a board of nine cells ("" for empty, or a
  player's symbol), the side to move, and a winner that is recorded once a
  line is completed and stays recorded until the engine is reset.
 */
module GameEngine {
  import opened Common

  /** The content of an empty cell. */
  const Blank: string := ""

  /** A cell index, 0 to 8 in reading order. */
  type Cell = i: nat | i < 9

  type Board = b: seq<string> | |b| == 9 witness ["", "", "", "", "", "", "", "", ""]

  datatype Engine = Engine(board: Board, turn: string, winner: Option<string>)

  /** The eight lines scanned for a win, in the order they are scanned:
      rows, then columns, then the two diagonals. */
  const Lines: seq<(Cell, Cell, Cell)> := [
    (0, 1, 2), (3, 4, 5), (6, 7, 8),
    (0, 3, 6), (1, 4, 7), (2, 5, 8),
    (0, 4, 8), (2, 4, 6)
  ]

  /** What a win check reports: the Python code returns `(None, [])`,
      `(symbol, [a, b, c])` or `("Draw", [])`. */
  datatype Verdict = Undecided | Won(symbol: string, line: seq<Cell>) | Draw

  /** The engine a new game, or a reset, starts from. */
  function Fresh(): (e: Engine)
    ensures forall i :: 0 <= i < 9 ==> e.board[i] == Blank
    ensures e.turn == "X" && e.winner == None
  {
    Engine(["", "", "", "", "", "", "", "", ""], "X", None)
  }

  /** `reset`: whatever the state, a fresh engine. */
  function Reset(e: Engine): (r: Engine)
    ensures forall i :: 0 <= i < 9 ==> r.board[i] == Blank
    ensures r.turn == "X" && r.winner == None
    ensures r == Fresh()
  {
    Fresh()
  }

  /** Python's `seq[index]` on a list of length `n`: a negative index counts
      from the end, anything outside `-n .. n - 1` raises IndexError (None). */
  function ResolveIndex(index: int, n: nat): (r: Option<nat>)
    ensures r.Some? <==> -(n as int) <= index < n
    ensures r.Some? ==> r.value < n && (r.value - index) % n == 0
  {
    if 0 <= index < n then Some(index)
    else if -(n as int) <= index < 0 then Some(index + n)
    else None
  }

  /** `make_move(index, symbol)`: None when indexing the board raises;
      otherwise whether the move was accepted and the engine after it. */
  function MakeMove(e: Engine, index: int, symbol: string): (r: Option<(bool, Engine)>)
    ensures r.None? <==> !(-9 <= index < 9)
    ensures r.Some? ==>
      var (ok, e') := r.value;
      var i := ResolveIndex(index, 9).value;
      && (ok <==> e.board[i] == Blank && e.winner.None?)
      && (ok ==> e'.board[i] == symbol && forall j :: 0 <= j < 9 && j != i ==> e'.board[j] == e.board[j])
      && (!ok ==> e' == e)
      && e'.turn == e.turn && e'.winner == e.winner
  {
    match ResolveIndex(index, 9)
    case None => None
    case Some(i) =>
      if e.board[i] == Blank && e.winner.None? then
        Some((true, e.(board := e.board[i := symbol])))
      else
        Some((false, e))
  }

  /** `switch_turn`: "X" hands over to "O"; every other value, "O"
      included, hands over to "X". */
  function SwitchTurn(e: Engine): (r: Engine)
    ensures r.turn in {"X", "O"}
    ensures r.turn == "O" <==> e.turn == "X"
    ensures r.board == e.board && r.winner == e.winner
  {
    e.(turn := if e.turn == "X" then "O" else "X")
  }

  /** Line `k` is complete: its three cells hold the same, non-empty, text. */
  predicate LineWins(board: Board, k: nat)
    requires k < |Lines|
  {
    var (a, b, c) := Lines[k];
    board[a] == board[b] && board[b] == board[c] && board[a] != Blank
  }

  /** Line `k` is the first complete line in scanning order. */
  predicate FirstWinningLine(board: Board, k: nat) {
    && k < |Lines|
    && LineWins(board, k)
    && forall j :: 0 <= j < k ==> !LineWins(board, j)
  }

  predicate SomeLineWins(board: Board) {
    exists k :: 0 <= k < |Lines| && LineWins(board, k)
  }

  /** The scan of `check_winner`'s loop from line `from` on: the first
      complete line at or after `from`, if any. */
  function ScanLines(board: Board, from: nat): (r: Option<nat>)
    requires from <= |Lines|
    ensures r.Some? ==> from <= r.value < |Lines| && LineWins(board, r.value)
    ensures r.Some? ==> forall j :: from <= j < r.value ==> !LineWins(board, j)
    ensures r.None? ==> forall j :: from <= j < |Lines| ==> !LineWins(board, j)
    decreases |Lines| - from
  {
    if from == |Lines| then None
    else if LineWins(board, from) then Some(from)
    else ScanLines(board, from + 1)
  }

  /** `check_winner`: the first complete line wins and records its symbol
      as the winner; with no complete line a full board is a draw;
      otherwise the game goes on. */
  function CheckWinner(e: Engine): (r: (Engine, Verdict))
    ensures r.1.Won? <==> SomeLineWins(e.board)
    ensures r.1.Won? ==>
      exists k: nat :: FirstWinningLine(e.board, k)
        && r.1.line == [Lines[k].0, Lines[k].1, Lines[k].2]
        && r.1.symbol == e.board[Lines[k].0]
    ensures r.1.Won? ==> r.1.symbol != Blank && r.1.symbol in e.board
    ensures r.1.Won? ==> r.0 == e.(winner := Some(r.1.symbol))
    ensures r.1.Draw? <==> !SomeLineWins(e.board) && Blank !in e.board
    ensures r.1.Undecided? <==> !SomeLineWins(e.board) && Blank in e.board
    ensures !r.1.Won? ==> r.0 == e
  {
    match ScanLines(e.board, 0)
    case Some(k) =>
      var (a, b, c) := Lines[k];
      assert FirstWinningLine(e.board, k);
      (e.(winner := Some(e.board[a])), Won(e.board[a], [a, b, c]))
    case None =>
      if Blank !in e.board then (e, Draw) else (e, Undecided)
  }

  /** The number of occupied cells among the first `n`. */
  function FilledAmong(board: Board, n: nat): (count: nat)
    requires n <= 9
    ensures count <= n
  {
    if n == 0 then 0
    else FilledAmong(board, n - 1) + (if board[n - 1] != Blank then 1 else 0)
  }

  function Filled(board: Board): (count: nat)
    ensures count <= 9
  {
    FilledAmong(board, 9)
  }

  lemma {:induction false} FilledAmongUpdate(board: Board, i: Cell, symbol: string, n: nat)
    requires n <= 9
    requires board[i] == Blank && symbol != Blank
    ensures FilledAmong(board[i := symbol], n) == FilledAmong(board, n) + (if i < n then 1 else 0)
  {
    if n > 0 {
      FilledAmongUpdate(board, i, symbol, n - 1);
    }
  }

  /** An accepted move of a real symbol never overwrites an occupied cell,
      so exactly one more cell is filled afterwards. */
  lemma MoveFillsOneCell(e: Engine, index: int, symbol: string)
    requires symbol != Blank
    requires MakeMove(e, index, symbol).Some? && MakeMove(e, index, symbol).value.0
    ensures Filled(MakeMove(e, index, symbol).value.1.board) == Filled(e.board) + 1
  {
    var i := ResolveIndex(index, 9).value;
    FilledAmongUpdate(e.board, i, symbol, 9);
  }

  /** A board with no empty cell has all nine cells filled, and conversely. */
  lemma {:induction false} FullBoard(board: Board, n: nat)
    requires n <= 9
    ensures FilledAmong(board, n) == n <==> forall j :: 0 <= j < n ==> board[j] != Blank
  {
    if n > 0 {
      FullBoard(board, n - 1);
    }
  }

  /** The engine operations a game is made of, for stating what holds
      across a run of them. */
  datatype Op = Move(index: int, symbol: string) | Switch | Check

  /** Applies one operation; a move that raises leaves the engine as is. */
  function Apply(e: Engine, op: Op): Engine {
    match op
    case Move(index, symbol) =>
      (match MakeMove(e, index, symbol) case None => e case Some((_, e')) => e')
    case Switch => SwitchTurn(e)
    case Check => CheckWinner(e).0
  }

  function Run(e: Engine, ops: seq<Op>): Engine
    decreases |ops|
  {
    if |ops| == 0 then e else Run(Apply(e, ops[0]), ops[1..])
  }

  /** Once a winner is recorded, no later move succeeds and the board never
      changes again until a reset: every later `make_move` returns false
      (or raises on a bad index). */
  lemma {:induction false} WinnerLatches(e: Engine, ops: seq<Op>)
    requires e.winner.Some?
    ensures Run(e, ops).winner.Some?
    ensures Run(e, ops).board == e.board
    ensures forall index: int, symbol: string ::
      MakeMove(Run(e, ops), index, symbol).Some? ==> !MakeMove(Run(e, ops), index, symbol).value.0
    decreases |ops|
  {
    if |ops| > 0 {
      var e1 := Apply(e, ops[0]);
      assert e1.winner.Some? && e1.board == e.board;
      WinnerLatches(e1, ops[1..]);
    }
  }

  /** A completed line records its winner, so the latch engages. */
  lemma WinLatches(e: Engine)
    requires SomeLineWins(e.board)
    ensures CheckWinner(e).0.winner.Some?
    ensures forall index: int, symbol: string ::
      MakeMove(CheckWinner(e).0, index, symbol).Some? ==> !MakeMove(CheckWinner(e).0, index, symbol).value.0
  {
  }

  /** A draw is only reported with nothing recorded as winner: the draw
      does not set `winner`. */
  lemma DrawRecordsNoWinner(e: Engine)
    requires e.winner.None?
    requires CheckWinner(e).1.Draw?
    ensures CheckWinner(e).0.winner.None?
    ensures Filled(e.board) == 9
  {
    FullBoard(e.board, 9);
  }

  /** Switching twice from "X" or "O" gives back the same side. */
  lemma SwitchTwice(e: Engine)
    requires e.turn in {"X", "O"}
    ensures SwitchTurn(SwitchTurn(e)) == e
  {
  }
}

=== FILE: relay.dfy ===
/**
  The relay server as pure transitions. The shared state is the registry
  of connected names, kept in insertion order as the Python dict `clients`
  keeps them, and the pairing table `client_games` (name to opponent).
  Each step of one connection's handler returns the new shared state, the
  messages it sends, and whether the connection goes on or is closed.
  A message is sent either back on the connection itself (only the
  rejection of a taken name) or to whichever connection is registered
  under a name (`clients[name].send(...)`).
 */
module Relay {
  import opened Common
  import opened Text

  const NameTaken: string := "ERROR:Name taken"
  const OpponentLeft: string := "OPPONENT_LEFT"

  datatype Dest = Caller | Named(name: string)

  datatype Send = Send(to: Dest, msg: string)

  datatype Server = Server(clients: seq<string>, games: map<string, string>)

  /** After a step, the handler either keeps reading as `user` or has
      closed its connection. */
  datatype Phase = Active(user: string) | Closed

  datatype Step = Step(relay: Server, sends: seq<Send>, phase: Phase)

  /** The registry never holds a name twice. */
  predicate Valid(r: Server) {
    Distinct(r.clients)
  }

  /** The one message a roster broadcast carries: LIST, then the names,
      comma-separated, in registration order. */
  function RosterMessage(clients: seq<string>): (m: string)
    ensures StartsWith(m, "LIST")
  {
    var m := "LIST," + Join(clients, ',');
    assert m[..4] == "LIST";
    m
  }

  /** Names free of commas can be read back from the roster message,
      field by field and in order. */
  lemma RosterFields(clients: seq<string>)
    requires |clients| >= 1
    requires forall i :: 0 <= i < |clients| ==> ',' !in clients[i]
    ensures Split(RosterMessage(clients), ',') == ["LIST"] + clients
  {
    JoinCons("LIST", clients, ',');
    assert RosterMessage(clients) == Join(["LIST"] + clients, ',');
    SplitJoin(["LIST"] + clients, ',');
  }

  /** The messages received by name `n` among `sends`. */
  function SentTo(sends: seq<Send>, n: string): (msgs: seq<string>)
    ensures |msgs| <= |sends|
  {
    if |sends| == 0 then []
    else (if sends[0].to == Named(n) then [sends[0].msg] else []) + SentTo(sends[1..], n)
  }

  lemma {:induction false} SentToConcat(a: seq<Send>, b: seq<Send>, n: string)
    ensures SentTo(a + b, n) == SentTo(a, n) + SentTo(b, n)
    decreases |a|
  {
    if |a| > 0 {
      assert (a + b)[1..] == a[1..] + b;
      SentToConcat(a[1..], b, n);
    } else {
      assert a + b == b;
    }
  }

  /** `broadcast_player_list`: one roster message to every registered
      client, in registration order. */
  function Broadcast(clients: seq<string>): (out: seq<Send>)
    ensures |out| == |clients|
    ensures forall i :: 0 <= i < |out| ==> out[i].to == Named(clients[i])
    ensures forall i :: 0 <= i < |out| ==> out[i].msg == RosterMessage(clients)
  {
    var msg := RosterMessage(clients);
    seq(|clients|, i requires 0 <= i < |clients| => Send(Named(clients[i]), msg))
  }

  /** What each name receives from a broadcast: the roster exactly once if
      it is registered (once per registration, in general), otherwise
      nothing. */
  lemma {:induction false} BroadcastReachesEachOnce(clients: seq<string>, n: string)
    requires Distinct(clients)
    ensures SentTo(Broadcast(clients), n) == if n in clients then [RosterMessage(clients)] else []
  {
    BroadcastSentTo(clients, RosterMessage(clients), n);
  }

  lemma {:induction false} BroadcastSentTo(names: seq<string>, msg: string, n: string)
    requires Distinct(names)
    ensures SentTo(seq(|names|, i requires 0 <= i < |names| => Send(Named(names[i]), msg)), n)
         == if n in names then [msg] else []
    decreases |names|
  {
    var out := seq(|names|, i requires 0 <= i < |names| => Send(Named(names[i]), msg));
    if |names| > 0 {
      var tail := seq(|names| - 1, i requires 0 <= i < |names| - 1 => Send(Named(names[1..][i]), msg));
      assert out[1..] == tail;
      assert names[0] !in names[1..];
      BroadcastSentTo(names[1..], msg, n);
      assert n in names <==> n == names[0] || n in names[1..];
    }
  }

  /** The loop of `broadcast_player_list` when the sockets of the names in
      `broken` fail: each failure is caught and the loop goes on, so every
      other registered client still gets the roster. */
  method DeliverBroadcast(clients: seq<string>, broken: set<string>) returns (delivered: seq<Send>)
    ensures forall s :: s in delivered ==> s.msg == RosterMessage(clients)
    ensures forall s :: s in delivered ==> s.to.Named? && s.to.name in clients && s.to.name !in broken
    ensures forall i :: 0 <= i < |clients| && clients[i] !in broken ==>
      Send(Named(clients[i]), RosterMessage(clients)) in delivered
    ensures |delivered| <= |clients|
    ensures (forall i :: 0 <= i < |clients| ==> clients[i] !in broken) ==> delivered == Broadcast(clients)
  {
    var msg := RosterMessage(clients);
    ghost var all := Broadcast(clients);
    ghost var none := forall j :: 0 <= j < |clients| ==> clients[j] !in broken;
    delivered := [];
    var i := 0;
    while i < |clients|
      invariant 0 <= i <= |clients|
      invariant |delivered| <= i
      invariant forall s :: s in delivered ==> s.msg == msg
      invariant forall s :: s in delivered ==> s.to.Named? && s.to.name in clients[..i] && s.to.name !in broken
      invariant forall j :: 0 <= j < i && clients[j] !in broken ==> Send(Named(clients[j]), msg) in delivered
      invariant none ==> delivered == all[..i]
    {
      if clients[i] !in broken {
        delivered := delivered + [Send(Named(clients[i]), msg)];
      }
      if none {
        assert all[..i + 1] == all[..i] + [all[i]];
      }
      i := i + 1;
    }
    if none {
      assert all[..|clients|] == all;
    }
  }

  /** The `finally` block of `handle_client` for the name `u`: when `u` is
      registered it is removed; if its recorded opponent is non-empty and
      still registered, that opponent is told OPPONENT_LEFT and both
      pairing entries go, otherwise the pairing table is left as it was;
      then the remaining roster is broadcast. An unregistered `u` changes
      nothing and sends nothing. */
  function Cleanup(r: Server, u: string): (res: (Server, seq<Send>))
    ensures u !in r.clients ==> res == (r, [])
    ensures u in r.clients ==> res.0.clients == Without(r.clients, u)
    ensures u in r.clients ==>
      var notified := u in r.games && r.games[u] != "" && r.games[u] in res.0.clients;
      && (notified ==>
            res.1 == [Send(Named(r.games[u]), OpponentLeft)] + Broadcast(res.0.clients)
            && res.0.games == r.games - {u, r.games[u]})
      && (!notified ==> res.1 == Broadcast(res.0.clients) && res.0.games == r.games)
    ensures Valid(r) ==> Valid(res.0)
  {
    if u !in r.clients then (r, [])
    else
      var remaining := Without(r.clients, u);
      WithoutDistinct(r.clients, u);
      if u in r.games && r.games[u] != "" && r.games[u] in remaining then
        var opponent := r.games[u];
        (Server(remaining, r.games - {u, opponent}),
         [Send(Named(opponent), OpponentLeft)] + Broadcast(remaining))
      else
        (Server(remaining, r.games), Broadcast(remaining))
  }

  /** Leaving the handler: run the cleanup for `u` after whatever `before`
      was already sent. */
  function Close(r: Server, u: string, before: seq<Send>): (st: Step)
    ensures st.phase == Closed
    ensures st.relay == Cleanup(r, u).0 && st.sends == before + Cleanup(r, u).1
    ensures u !in st.relay.clients
    ensures |st.sends| >= |before| && st.sends[..|before|] == before
    ensures u !in r.clients ==> st.relay == r && st.sends == before
    ensures Valid(r) ==> Valid(st.relay)
  {
    var (r', out) := Cleanup(r, u);
    Step(r', before + out, Closed)
  }

  /** The first message of a connection, its user name. A new name is
      appended to the registry and the roster is broadcast, the newcomer
      included. A taken name is refused with "ERROR:Name taken", and then
      the `finally` block runs with that same name: the earlier holder of
      the name is removed from the registry as if it had left. */
  function Register(r: Server, name: string): (st: Step)
    ensures name !in r.clients ==>
      && st.phase == Active(name)
      && st.relay.clients == r.clients + [name]
      && st.relay.games == r.games
      && st.sends == Broadcast(r.clients + [name])
    ensures name in r.clients ==>
      && st.phase == Closed
      && |st.sends| >= 1 && st.sends[0] == Send(Caller, NameTaken)
      && (st.relay, st.sends[1..]) == Cleanup(r, name)
      && name !in st.relay.clients
    ensures Valid(r) ==> Valid(st.relay)
  {
    if name in r.clients then
      var (r', out) := Cleanup(r, name);
      Step(r', [Send(Caller, NameTaken)] + out, Closed)
    else
      var r' := r.(clients := r.clients + [name]);
      assert forall i :: 0 <= i < |r.clients| ==> r'.clients[i] == r.clients[i];
      Step(r', Broadcast(r'.clients), Active(name))
  }

  /** `INVITE:<target>` from `u`: forwarded as INVITE_FROM:<u> to the
      target when the target is registered, dropped otherwise. */
  function HandleInvite(r: Server, u: string, target: string): (st: Step)
    ensures st.relay == r && st.phase == Active(u)
    ensures target in r.clients ==> st.sends == [Send(Named(target), "INVITE_FROM:" + u)]
    ensures target !in r.clients ==> st.sends == []
  {
    if target in r.clients then Step(r, [Send(Named(target), "INVITE_FROM:" + u)], Active(u))
    else Step(r, [], Active(u))
  }

  /** `ACCEPT:<challenger>` from `u`: the pairing table records `u` and the
      challenger as each other's opponents, overwriting whatever either
      had (a former partner's entry is not touched). Then the acceptor is
      told it plays O and the challenger that it plays X. Looking up an
      unregistered name raises KeyError, which ends the handler: if `u`
      itself is no longer registered nothing is sent, and if the
      challenger is not registered only the acceptor's message goes out. */
  function HandleAccept(r: Server, u: string, challenger: string): (st: Step)
    ensures st.relay.games.Keys == r.games.Keys + {u, challenger}
    ensures st.relay.games[challenger] == u
    ensures u != challenger ==> st.relay.games[u] == challenger
    ensures forall n :: n in r.games && n != u && n != challenger ==> st.relay.games[n] == r.games[n]
    ensures st.phase.Active? ==> st.relay.clients == r.clients
    ensures st.phase.Closed? ==> st.relay.clients == Without(r.clients, u)
    ensures u in r.clients && challenger in r.clients ==>
      && st.phase == Active(u)
      && st.sends == [Send(Named(u), "GAME_START:YOU_O:" + challenger),
                      Send(Named(challenger), "GAME_START:YOU_X:" + u)]
    ensures u !in r.clients ==> st.phase == Closed && st.sends == []
    ensures u in r.clients && challenger !in r.clients ==>
      && st.phase == Closed
      && st.sends == [Send(Named(u), "GAME_START:YOU_O:" + challenger)] + Broadcast(Without(r.clients, u))
    ensures Valid(r) ==> Valid(st.relay)
  {
    var paired := r.(games := r.games[u := challenger][challenger := u]);
    if u !in r.clients then Close(paired, u, [])
    else if challenger !in r.clients then
      Close(paired, u, [Send(Named(u), "GAME_START:YOU_O:" + challenger)])
    else
      Step(paired, [Send(Named(u), "GAME_START:YOU_O:" + challenger),
                    Send(Named(challenger), "GAME_START:YOU_X:" + u)], Active(u))
  }

  /** `MOVE:<text>` from `u`: relayed verbatim as OPPONENT_MOVE:<text> to
      the recorded opponent, if there is a non-empty one; no check of the
      text, of bounds or of whose turn it is. An opponent that is no longer
      registered raises KeyError and ends the handler. */
  function HandleMove(r: Server, u: string, move: string): (st: Step)
    ensures !(u in r.games && r.games[u] != "") ==> st == Step(r, [], Active(u))
    ensures u in r.games && r.games[u] != "" && r.games[u] in r.clients ==>
      st == Step(r, [Send(Named(r.games[u]), "OPPONENT_MOVE:" + move)], Active(u))
    ensures u in r.games && r.games[u] != "" && r.games[u] !in r.clients ==>
      st.phase == Closed && st.relay == Cleanup(r, u).0 && st.sends == Cleanup(r, u).1
    ensures Valid(r) ==> Valid(st.relay)
  {
    if u in r.games && r.games[u] != "" then
      var opponent := r.games[u];
      if opponent in r.clients then
        Step(r, [Send(Named(opponent), "OPPONENT_MOVE:" + move)], Active(u))
      else
        Close(r, u, [])
    else
      Step(r, [], Active(u))
  }

  /** One message read by the handler of registered user `u`. An empty
      read is the peer closing: the handler leaves its loop and cleans up.
      Otherwise the message is dispatched on its prefix, the argument being
      the second colon-separated field; anything else is ignored and the
      handler reads on. */
  function Handle(r: Server, u: string, msg: string): (st: Step)
    ensures msg == "" ==> st == Close(r, u, [])
    ensures StartsWith(msg, "INVITE:") ==>
      Field(msg, ':', 1).Some? && st == HandleInvite(r, u, Field(msg, ':', 1).value)
    ensures StartsWith(msg, "ACCEPT:") ==>
      Field(msg, ':', 1).Some? && st == HandleAccept(r, u, Field(msg, ':', 1).value)
    ensures StartsWith(msg, "MOVE:") ==>
      Field(msg, ':', 1).Some? && st == HandleMove(r, u, Field(msg, ':', 1).value)
    ensures (msg != "" && !StartsWith(msg, "INVITE:") && !StartsWith(msg, "ACCEPT:")
             && !StartsWith(msg, "MOVE:")) ==> st == Step(r, [], Active(u))
    ensures Valid(r) ==> Valid(st.relay)
  {
    CommandPrefixesExclusive(msg);
    if msg == "" then Close(r, u, [])
    else if StartsWith(msg, "INVITE:") then HandleInvite(r, u, ArgAfter(msg, "INVITE:"))
    else if StartsWith(msg, "ACCEPT:") then HandleAccept(r, u, ArgAfter(msg, "ACCEPT:"))
    else if StartsWith(msg, "MOVE:") then HandleMove(r, u, ArgAfter(msg, "MOVE:"))
    else Step(r, [], Active(u))
  }

  /** The three prefixes the handler tests never match the same message. */
  lemma CommandPrefixesExclusive(msg: string)
    ensures StartsWith(msg, "ACCEPT:") ==> !StartsWith(msg, "INVITE:")
    ensures StartsWith(msg, "MOVE:") ==> !StartsWith(msg, "INVITE:") && !StartsWith(msg, "ACCEPT:")
  {
    assert "ACCEPT:"[0] == 'A';
    PrefixesExclude(msg, "INVITE:", "ACCEPT:");
    assert "INVITE:"[..5][0] == 'I';
    PrefixesExclude(msg, "MOVE:", "INVITE:");
    assert "ACCEPT:"[..5][0] == 'A';
    PrefixesExclude(msg, "MOVE:", "ACCEPT:");
  }

  /** A command built from a prefix and a colon-free argument is
      dispatched to its handler with exactly that argument. */
  lemma CommandDispatch(r: Server, u: string, arg: string)
    requires ':' !in arg
    ensures Handle(r, u, "INVITE:" + arg) == HandleInvite(r, u, arg)
    ensures Handle(r, u, "ACCEPT:" + arg) == HandleAccept(r, u, arg)
    ensures Handle(r, u, "MOVE:" + arg) == HandleMove(r, u, arg)
  {
    CommandArgument("INVITE:", arg);
    CommandArgument("ACCEPT:", arg);
    CommandArgument("MOVE:", arg);
    CommandPrefixesExclusive("ACCEPT:" + arg);
    CommandPrefixesExclusive("MOVE:" + arg);
  }

  lemma CommandArgument(prefix: string, arg: string)
    requires |prefix| >= 1 && prefix[|prefix| - 1] == ':' && ':' !in prefix[..|prefix| - 1]
    requires ':' !in arg
    ensures StartsWith(prefix + arg, prefix)
    ensures ArgAfter(prefix + arg, prefix) == arg
  {
    assert (prefix + arg)[..|prefix|] == prefix;
    assert (prefix + arg)[|prefix|..] == arg;
    SplitWithoutSeparator(arg, ':');
  }

  /** The read of `u`'s connection raised (or the peer went away): the
      handler runs its `finally` block. */
  function Disconnect(r: Server, u: string): (st: Step)
    ensures st.phase == Closed
    ensures st.relay == Cleanup(r, u).0 && st.sends == Cleanup(r, u).1
    ensures u !in st.relay.clients
    ensures forall n :: n in r.clients && n != u ==> n in st.relay.clients
    ensures u !in r.clients ==> st.relay == r && st.sends == []
    ensures Valid(r) && u in r.clients ==> |st.relay.clients| == |r.clients| - 1
    ensures Valid(r) ==> Valid(st.relay)
  {
    WithoutDistinctLength(r.clients, u);
    var st := Close(r, u, []);
    assert [] + Cleanup(r, u).1 == Cleanup(r, u).1;
    st
  }

  /** Whether the cleanup of `u` tells a partner OPPONENT_LEFT. */
  predicate NotifiesPartner(r: Server, u: string) {
    u in r.games && r.games[u] != "" && r.games[u] in Without(r.clients, u)
  }

  /** What one name receives from the cleanup of a registered `u`: the
      partner OPPONENT_LEFT first, when it is told, then every remaining
      name the new roster once. */
  lemma CleanupSentTo(r: Server, u: string, n: string)
    requires Valid(r) && u in r.clients
    ensures SentTo(Cleanup(r, u).1, n)
         == (if NotifiesPartner(r, u) && n == r.games[u] then [OpponentLeft] else [])
          + (if n in Cleanup(r, u).0.clients then [RosterMessage(Cleanup(r, u).0.clients)] else [])
  {
    var rest := Without(r.clients, u);
    assert Cleanup(r, u).0.clients == rest;
    var b := Broadcast(rest);
    BroadcastReachesEachOnce(rest, n);
    if NotifiesPartner(r, u) {
      var notice := [Send(Named(r.games[u]), OpponentLeft)];
      assert Cleanup(r, u).1 == notice + b;
      SentToConcat(notice, b, n);
      assert SentTo(notice[1..], n) == [];
    } else {
      assert Cleanup(r, u).1 == b;
    }
  }

  /** A disconnect sends OPPONENT_LEFT at most to the partner, and to every
      other remaining client exactly the new roster; the leaving name
      receives nothing. */
  lemma DisconnectNotifiesNoOneElse(r: Server, u: string)
    requires Valid(r)
    requires u in r.clients
    ensures forall n :: n != u && !(u in r.games && n == r.games[u]) ==>
      SentTo(Cleanup(r, u).1, n)
        == if n in Cleanup(r, u).0.clients then [RosterMessage(Cleanup(r, u).0.clients)] else []
    ensures SentTo(Cleanup(r, u).1, u) == []
    ensures NotifiesPartner(r, u) ==>
      SentTo(Cleanup(r, u).1, r.games[u]) == [OpponentLeft, RosterMessage(Cleanup(r, u).0.clients)]
  {
    forall n {
      CleanupSentTo(r, u, n);
    }
    assert u !in Cleanup(r, u).0.clients;
  }

  /** ACCEPT does not clear the reciprocal entry of a former partner:
      starting from a symmetric pairing of a and b, c accepting b's
      challenge leaves a recorded as b's opponent no more, yet a still
      points at b. The pairing table stops being symmetric. */
  lemma AcceptLeavesStalePairing()
    ensures var r := Server(["a", "b", "c"], map["a" := "b", "b" := "a"]);
      var st := HandleAccept(r, "c", "b");
      && st.relay.games["a"] == "b"
      && st.relay.games["b"] == "c"
      && st.relay.games["c"] == "b"
  {
  }

  /** A second connection choosing a registered name evicts the first
      holder: with alice paired with bob, a new "alice" is refused, alice
      is removed, bob is told OPPONENT_LEFT and both pairing entries go. */
  lemma DuplicateNameEvictsHolder()
    ensures var r := Server(["alice", "bob"], map["alice" := "bob", "bob" := "alice"]);
      var st := Register(r, "alice");
      && st.phase == Closed
      && st.relay == Server(["bob"], map[])
      && st.sends == [Send(Caller, NameTaken), Send(Named("bob"), OpponentLeft),
                      Send(Named("bob"), "LIST,bob")]
  {
    var r := Server(["alice", "bob"], map["alice" := "bob", "bob" := "alice"]);
    assert Without(r.clients, "alice") == ["bob"];
    assert r.games - {"alice", "bob"} == map[];
    assert RosterMessage(["bob"]) == "LIST,bob";
    assert Broadcast(["bob"]) == [Send(Named("bob"), "LIST,bob")];
  }
}

=== FILE: scenarios.dfy ===
/**
  Properties of the whole protocol: what a message produced by the relay
  means once the receiving client has interpreted it.
 */
module Scenarios {
  import opened Common
  import opened Text
  import opened GameEngine
  import opened Relay
  import opened Client

  /** A roster broadcast, read by a client, shows exactly the registered
      names other than the client's own, in registration order, provided
      no name contains a comma. */
  lemma {:induction false} RosterReachesClient(c: Controller, clients: seq<string>)
    requires c.listening
    requires |clients| >= 1
    requires forall i :: 0 <= i < |clients| ==> ',' !in clients[i]
    ensures Receive(c, RosterMessage(clients)).ui == [RosterShown(Without(clients, c.username))]
    ensures Receive(c, RosterMessage(clients)).ctrl == c
  {
    RosterFields(clients);
    assert Split(RosterMessage(clients), ',')[1..] == clients;
    assert Classify(RosterMessage(clients)) == RosterKind;
  }

  /** An invitation relayed as INVITE_FROM:<sender>, read by a client,
      asks the player about exactly that sender and changes nothing else. */
  lemma InviteReachesClient(c: Controller, sender: string)
    requires c.listening
    requires ':' !in sender
    ensures Receive(c, "INVITE_FROM:" + sender) == Reaction(c, [], [ChallengeAsked(sender)])
  {
    var msg := "INVITE_FROM:" + sender;
    assert msg == "INVITE_FROM" + [':'] + sender;
    assert msg[..11] == "INVITE_FROM";
    SplitAfterHead("INVITE_FROM", ':', sender);
    SplitWithoutSeparator(sender, ':');
    assert Field(msg, ':', 1) == Some(sender);
    assert Classify(msg) == InviteKind;
  }

  /** Accepting a challenge sends ACCEPT:<sender>, which the relay handles
      as an acceptance of that same sender's challenge. */
  lemma DecisionReachesRelay(r: Server, acceptor: string, sender: string)
    requires ':' !in sender
    ensures OnDecision(sender, true) == ["ACCEPT:" + sender]
    ensures Handle(r, acceptor, OnDecision(sender, true)[0]) == HandleAccept(r, acceptor, sender)
  {
    CommandDispatch(r, acceptor, sender);
  }

  /** The relay forwards the text of a MOVE message to the sender's
      recorded opponent. */
  lemma RelayForwardsMove(r: Server, u: string, text: string)
    requires ':' !in text
    requires u in r.games && r.games[u] != "" && r.games[u] in r.clients
    ensures Handle(r, u, "MOVE:" + text).sends == [Send(Named(r.games[u]), "OPPONENT_MOVE:" + text)]
  {
    CommandDispatch(r, u, text);
  }

  /** A client reads OPPONENT_MOVE:<decimal text of index> as a remote
      click on that index. */
  lemma OpponentAppliesMove(b: Controller, index: int)
    requires b.listening
    ensures Receive(b, "OPPONENT_MOVE:" + IntToString(index)) == HandleClick(b, index, true)
  {
    var text := IntToString(index);
    var relayed := "OPPONENT_MOVE:" + text;
    assert relayed == "OPPONENT_MOVE" + [':'] + text;
    assert relayed[..13] == "OPPONENT_MOVE";
    SplitAfterHead("OPPONENT_MOVE", ':', text);
    assert Field(relayed, ':', 1) == Some(text);
    ParseIntToString(index);
    assert Classify(relayed) == MoveKind;
  }

  /** A move clicked locally in an online game travels unchanged: the
      client sends MOVE:<index>, the relay forwards OPPONENT_MOVE:<index>
      to the paired opponent, and the opponent's client applies the same
      index as a remote click. */
  lemma MoveReachesOpponent(a: Controller, index: int, r: Server, b: Controller)
    requires a.mode == Online && Accepted(a, index, false)
    requires a.username in r.games && r.games[a.username] != ""
    requires r.games[a.username] in r.clients
    requires b.listening
    ensures var sent := HandleClick(a, index, false).outbound;
      && sent == ["MOVE:" + IntToString(index)]
      && Handle(r, a.username, sent[0]).sends
           == [Send(Named(r.games[a.username]), "OPPONENT_MOVE:" + IntToString(index))]
      && Receive(b, "OPPONENT_MOVE:" + IntToString(index)) == HandleClick(b, index, true)
  {
    RelayForwardsMove(r, a.username, IntToString(index));
    OpponentAppliesMove(b, index);
  }

  /** The fields of a GAME_START message as the relay builds it. */
  lemma GameStartFields(msg: string, tag: string, opponent: string)
    requires ':' !in tag
    requires msg == "GAME_START:" + tag + ":" + opponent
    ensures StartsWith(msg, "GAME_START")
    ensures |Split(msg, ':')| >= 2 && Split(msg, ':')[1] == tag
  {
    var head := "GAME_START";
    var tail := tag + [':'] + opponent;
    assert "GAME_START:" == head + [':'];
    assert msg == head + [':'] + tail;
    assert msg[..|head|] == head;
    SplitAfterHead(head, ':', tail);
    SplitAfterHead(tag, ':', opponent);
  }

  /** A GAME_START message as the relay builds it, read by a client. */
  lemma ReadRelayedGameStart(c: Controller, msg: string, tag: string, opponent: string)
    requires c.listening
    requires ':' !in tag
    requires msg == "GAME_START:" + tag + ":" + opponent
    ensures (Receive(c, msg).ctrl.mySymbol == "X" <==> tag == "YOU_X")
    ensures Receive(c, msg).ctrl.mode == Online
    ensures Receive(c, msg).ctrl.engine == Fresh()
  {
    GameStartFields(msg, tag, opponent);
    assert Classify(msg) == StartKind;
  }

  /** When both are registered, accepting a challenge makes the challenger's
      client play X and the acceptor's client play O, both online with a
      fresh board on which X moves first. The relay keeps no record of
      invitations, so the challenger is whoever the ACCEPT names. */
  lemma GameStartAssignsSymbols(r: Server, acceptor: string, challenger: string,
                                ca: Controller, cc: Controller)
    requires acceptor in r.clients && challenger in r.clients
    requires ca.listening && cc.listening
    ensures var st := HandleAccept(r, acceptor, challenger);
      && |st.sends| == 2
      && st.sends[0].to == Named(acceptor) && st.sends[1].to == Named(challenger)
      && Receive(ca, st.sends[0].msg).ctrl.mySymbol == "O"
      && Receive(cc, st.sends[1].msg).ctrl.mySymbol == "X"
      && Receive(ca, st.sends[0].msg).ctrl.mode == Online
      && Receive(cc, st.sends[1].msg).ctrl.mode == Online
      && Receive(cc, st.sends[1].msg).ctrl.engine.turn == "X"
  {
    var st := HandleAccept(r, acceptor, challenger);
    assert st.sends[0].msg == "GAME_START:YOU_O:" + challenger;
    assert st.sends[1].msg == "GAME_START:YOU_X:" + acceptor;
    ReadRelayedYouO(ca, challenger);
    ReadRelayedYouX(cc, acceptor);
  }

  lemma ReadRelayedYouO(c: Controller, opponent: string)
    requires c.listening
    ensures Receive(c, "GAME_START:YOU_O:" + opponent).ctrl.mySymbol == "O"
    ensures Receive(c, "GAME_START:YOU_O:" + opponent).ctrl.mode == Online
  {
    var msg := "GAME_START:YOU_O:" + opponent;
    assert msg == "GAME_START:" + "YOU_O" + ":" + opponent;
    ReadRelayedGameStart(c, msg, "YOU_O", opponent);
  }

  lemma ReadRelayedYouX(c: Controller, opponent: string)
    requires c.listening
    ensures Receive(c, "GAME_START:YOU_X:" + opponent).ctrl.mySymbol == "X"
    ensures Receive(c, "GAME_START:YOU_X:" + opponent).ctrl.mode == Online
    ensures Receive(c, "GAME_START:YOU_X:" + opponent).ctrl.engine.turn == "X"
  {
    var msg := "GAME_START:YOU_X:" + opponent;
    assert msg == "GAME_START:" + "YOU_X" + ":" + opponent;
    ReadRelayedGameStart(c, msg, "YOU_X", opponent);
  }

  // The session of two players, one step at a time.

  const Lobby: Server := Server(["alice", "bob"], map[])
  const Playing: Server := Server(["alice", "bob"], map["bob" := "alice", "alice" := "bob"])

  lemma AliceRegisters()
    ensures Register(Server([], map[]), "alice")
         == Step(Server(["alice"], map[]), [Send(Named("alice"), "LIST,alice")], Active("alice"))
  {
    assert RosterMessage(["alice"]) == "LIST,alice";
  }

  lemma BobRegisters()
    ensures Register(Server(["alice"], map[]), "bob")
         == Step(Lobby, [Send(Named("alice"), "LIST,alice,bob"), Send(Named("bob"), "LIST,alice,bob")],
                 Active("bob"))
  {
    assert ["alice"] + ["bob"] == ["alice", "bob"];
    JoinCons("alice", ["bob"], ',');
    assert RosterMessage(["alice", "bob"]) == "LIST,alice,bob";
    var b := Broadcast(["alice", "bob"]);
    assert b[0] == Send(Named("alice"), "LIST,alice,bob");
    assert b[1] == Send(Named("bob"), "LIST,alice,bob");
  }

  lemma AliceInvitesBob()
    ensures Handle(Lobby, "alice", "INVITE:bob")
         == Step(Lobby, [Send(Named("bob"), "INVITE_FROM:alice")], Active("alice"))
  {
    var msg := "INVITE:" + "bob";
    assert msg == "INVITE:bob";
    CommandDispatch(Lobby, "alice", "bob");
    assert Handle(Lobby, "alice", msg) == HandleInvite(Lobby, "alice", "bob");
    AliceInvitation();
  }

  lemma AliceInvitation()
    ensures HandleInvite(Lobby, "alice", "bob")
         == Step(Lobby, [Send(Named("bob"), "INVITE_FROM:alice")], Active("alice"))
  {
    assert Lobby.clients[1] == "bob";
    assert "INVITE_FROM:" + "alice" == "INVITE_FROM:alice";
  }

  lemma BobAccepts()
    ensures Handle(Lobby, "bob", "ACCEPT:alice")
         == Step(Playing, [Send(Named("bob"), "GAME_START:YOU_O:alice"),
                           Send(Named("alice"), "GAME_START:YOU_X:bob")], Active("bob"))
  {
    var msg := "ACCEPT:" + "alice";
    assert msg == "ACCEPT:alice";
    CommandDispatch(Lobby, "bob", "alice");
    assert Handle(Lobby, "bob", msg) == HandleAccept(Lobby, "bob", "alice");
    BobAcceptsAlice();
  }

  lemma BobAcceptsAlice()
    ensures HandleAccept(Lobby, "bob", "alice")
         == Step(Playing, [Send(Named("bob"), "GAME_START:YOU_O:alice"),
                           Send(Named("alice"), "GAME_START:YOU_X:bob")], Active("bob"))
  {
    assert Lobby.clients[0] == "alice" && Lobby.clients[1] == "bob";
    assert "GAME_START:YOU_O:" + "alice" == "GAME_START:YOU_O:alice";
    assert "GAME_START:YOU_X:" + "bob" == "GAME_START:YOU_X:bob";
    assert Lobby.(games := Lobby.games["bob" := "alice"]["alice" := "bob"]) == Playing;
  }

  lemma AliceMoves()
    ensures Handle(Playing, "alice", "MOVE:4")
         == Step(Playing, [Send(Named("bob"), "OPPONENT_MOVE:4")], Active("alice"))
  {
    var msg := "MOVE:" + "4";
    assert msg == "MOVE:4";
    CommandDispatch(Playing, "alice", "4");
    assert Handle(Playing, "alice", msg) == HandleMove(Playing, "alice", "4");
    AliceMoveRelayed();
  }

  lemma AliceMoveRelayed()
    ensures HandleMove(Playing, "alice", "4")
         == Step(Playing, [Send(Named("bob"), "OPPONENT_MOVE:4")], Active("alice"))
  {
    assert Playing.games["alice"] == "bob";
    assert Playing.clients[1] == "bob";
    assert "OPPONENT_MOVE:" + "4" == "OPPONENT_MOVE:4";
  }

  lemma BobLeaves()
    ensures Disconnect(Playing, "bob")
         == Step(Server(["alice"], map[]),
                 [Send(Named("alice"), OpponentLeft), Send(Named("alice"), "LIST,alice")], Closed)
  {
    assert Without(["alice", "bob"], "bob") == ["alice"];
    assert Playing.games - {"bob", "alice"} == map[];
    assert RosterMessage(["alice"]) == "LIST,alice";
  }
}

=== FILE: text.dfy ===
/**
  The string handling the protocol relies on: prefix tests, splitting on
  one separator character and joining with it (Python's `str.startswith`,
  `str.split(sep)` and `sep.join`), and the decimal text of integers that
  `f"{index}"` produces and `int(...)` reads back.
 */
module Text {
  import opened Common

  /** Python's `s.startswith(p)`. */
  predicate StartsWith(s: string, p: string) {
    |p| <= |s| && s[..|p|] == p
  }

  /** The position of the first `sep` in `s`, if there is one. */
  function IndexOf(s: string, sep: char): (r: Option<nat>)
    ensures r.Some? ==> r.value < |s| && s[r.value] == sep && sep !in s[..r.value]
    ensures r.None? <==> sep !in s
  {
    if |s| == 0 then None
    else if s[0] == sep then Some(0)
    else match IndexOf(s[1..], sep)
      case None => None
      case Some(k) =>
        assert s[..k + 1] == [s[0]] + s[1..][..k];
        Some(k + 1)
  }

  /** Python's `s.split(sep)` for a one-character separator: the pieces
      between consecutive separators, so always at least one piece. */
  function Split(s: string, sep: char): (fields: seq<string>)
    ensures |fields| >= 1
    ensures forall i :: 0 <= i < |fields| ==> sep !in fields[i]
    decreases |s|
  {
    match IndexOf(s, sep)
    case None => [s]
    case Some(k) => [s[..k]] + Split(s[k + 1..], sep)
  }

  /** A text without the separator is a single piece. */
  lemma SplitWithoutSeparator(s: string, sep: char)
    requires sep !in s
    ensures Split(s, sep) == [s]
  {
  }

  /** Python's `sep.join(parts)`; the empty list joins to "". */
  function Join(parts: seq<string>, sep: char): (s: string)
    ensures |parts| >= 1 ==> StartsWith(s, parts[0])
  {
    if |parts| == 0 then ""
    else if |parts| == 1 then parts[0]
    else parts[0] + [sep] + Join(parts[1..], sep)
  }

  /** Python's `s.split(sep)[k]`: None stands for the IndexError raised
      when `s` has fewer than `k + 1` pieces. */
  function Field(s: string, sep: char, k: nat): (r: Option<string>)
    ensures r.Some? <==> k < |Split(s, sep)|
    ensures r.Some? ==> sep !in r.value
  {
    var fields := Split(s, sep);
    if k < |fields| then Some(fields[k]) else None
  }

  lemma JoinCons(head: string, rest: seq<string>, sep: char)
    requires |rest| >= 1
    ensures Join([head] + rest, sep) == head + [sep] + Join(rest, sep)
  {
    assert ([head] + rest)[1..] == rest;
  }

  /** Splitting and joining again gives back the original text. */
  lemma {:induction false} JoinSplit(s: string, sep: char)
    ensures Join(Split(s, sep), sep) == s
    decreases |s|
  {
    match IndexOf(s, sep)
    case None =>
    case Some(k) =>
      var rest := Split(s[k + 1..], sep);
      assert Split(s, sep) == [s[..k]] + rest;
      JoinSplit(s[k + 1..], sep);
      JoinCons(s[..k], rest, sep);
      assert s == s[..k] + [sep] + s[k + 1..];
  }

  /** The first separator after a separator-free head is the one right
      after it. */
  lemma {:induction false} IndexOfAfterHead(head: string, sep: char, tail: string)
    requires sep !in head
    ensures IndexOf(head + [sep] + tail, sep) == Some(|head|)
    decreases |head|
  {
    var s := head + [sep] + tail;
    if |head| > 0 {
      assert s[0] == head[0];
      assert s[1..] == head[1..] + [sep] + tail;
      IndexOfAfterHead(head[1..], sep, tail);
    }
  }

  /** Splitting a text that begins with a separator-free head followed by
      the separator: the head is the first piece and the tail is split on
      its own. */
  lemma SplitAfterHead(head: string, sep: char, tail: string)
    requires sep !in head
    ensures Split(head + [sep] + tail, sep) == [head] + Split(tail, sep)
  {
    var s := head + [sep] + tail;
    IndexOfAfterHead(head, sep, tail);
    assert s[..|head|] == head;
    assert s[|head| + 1..] == tail;
  }

  /** Joining pieces that do not contain the separator and splitting again
      gives back the pieces, provided there is at least one. */
  lemma {:induction false} SplitJoin(parts: seq<string>, sep: char)
    requires |parts| >= 1
    requires forall i :: 0 <= i < |parts| ==> sep !in parts[i]
    ensures Split(Join(parts, sep), sep) == parts
    decreases |parts|
  {
    if |parts| == 1 {
      SplitWithoutSeparator(parts[0], sep);
    } else {
      var rest := parts[1..];
      assert parts == [parts[0]] + rest;
      JoinCons(parts[0], rest, sep);
      assert sep !in parts[0];
      SplitAfterHead(parts[0], sep, Join(rest, sep));
      SplitJoin(rest, sep);
    }
  }

  /** Python's `sep.join(parts).split(sep)[k]` is `parts[k]` when no part
      contains the separator. */
  lemma FieldOfJoin(parts: seq<string>, sep: char, k: nat)
    requires k < |parts|
    requires forall i :: 0 <= i < |parts| ==> sep !in parts[i]
    ensures Field(Join(parts, sep), sep, k) == Some(parts[k])
  {
    SplitJoin(parts, sep);
  }

  /** Two prefixes of which the shorter does not begin the longer cannot
      both begin the same text. */
  lemma PrefixesExclude(s: string, p: string, q: string)
    requires |p| <= |q| && q[..|p|] != p
    ensures !(StartsWith(s, p) && StartsWith(s, q))
  {
    if StartsWith(s, q) {
      assert s[..|p|] == s[..|q|][..|p|] == q[..|p|];
    }
  }

  /** The second colon-separated field of a message that starts with
      `prefix`, where `prefix` ends in its only colon: the text after the
      prefix up to the next colon. */
  function ArgAfter(msg: string, prefix: string): (arg: string)
    requires StartsWith(msg, prefix)
    requires |prefix| >= 1 && prefix[|prefix| - 1] == ':'
    requires ':' !in prefix[..|prefix| - 1]
    ensures ':' !in arg
    ensures Field(msg, ':', 1) == Some(arg)
    ensures Split(msg, ':') == [prefix[..|prefix| - 1]] + Split(msg[|prefix|..], ':')
  {
    var head := prefix[..|prefix| - 1];
    assert msg == head + [':'] + msg[|prefix|..];
    SplitAfterHead(head, ':', msg[|prefix|..]);
    Split(msg[|prefix|..], ':')[0]
  }

  // ---------------------------------------------------------------------
  // Decimal text of integers.

  predicate IsDigit(c: char) {
    '0' <= c <= '9'
  }

  /** A non-empty run of ASCII decimal digits. */
  predicate IsDigits(s: string) {
    |s| >= 1 && forall i :: 0 <= i < |s| ==> IsDigit(s[i])
  }

  function DigitValue(c: char): (d: nat)
    requires IsDigit(c)
    ensures d < 10
  {
    (c as int) - ('0' as int)
  }

  function DigitChar(d: nat): (c: char)
    requires d < 10
    ensures IsDigit(c) && DigitValue(c) == d
  {
    ('0' as int + d) as char
  }

  /** The number a run of decimal digits denotes, most significant first. */
  function DigitsValue(s: string): nat
    requires IsDigits(s)
    decreases |s|
  {
    if |s| == 1 then DigitValue(s[0])
    else DigitsValue(s[..|s| - 1]) * 10 + DigitValue(s[|s| - 1])
  }

  /** The shortest decimal text of a natural number (no leading zero). */
  function NatToDigits(n: nat): (s: string)
    ensures IsDigits(s)
    ensures |s| > 1 ==> s[0] != '0'
  {
    if n < 10 then [DigitChar(n)]
    else NatToDigits(n / 10) + [DigitChar(n % 10)]
  }

  /** `f"{i}"`, i.e. Python's `str(i)` on an int. */
  function IntToString(i: int): (s: string)
    ensures ':' !in s && ',' !in s
    ensures |s| >= 1
    ensures i >= 0 ==> IsDigits(s)
    ensures i < 0 ==> s[0] == '-' && IsDigits(s[1..])
  {
    if i < 0 then "-" + NatToDigits(-i) else NatToDigits(i)
  }

  /** Python's `int(s)` on an optionally signed run of ASCII digits; None
      stands for the ValueError raised on anything else. */
  function ParseInt(s: string): (r: Option<int>)
    ensures r.Some? <==> IsDigits(s) || (|s| >= 1 && (s[0] == '-' || s[0] == '+') && IsDigits(s[1..]))
    ensures r.Some? ==> |s| >= 1
    ensures r.Some? && s[0] == '-' ==> r.value <= 0
    ensures r.Some? && IsDigit(s[0]) ==> r.value >= 0
  {
    if |s| >= 1 && (s[0] == '-' || s[0] == '+') && IsDigits(s[1..]) then
      var magnitude: int := DigitsValue(s[1..]);
      Some(if s[0] == '-' then -magnitude else magnitude)
    else if IsDigits(s) then Some(DigitsValue(s))
    else None
  }

  lemma {:induction false} DigitsRoundTrip(n: nat)
    ensures DigitsValue(NatToDigits(n)) == n
  {
    if n >= 10 {
      DigitsRoundTrip(n / 10);
      var s := NatToDigits(n);
      assert s[..|s| - 1] == NatToDigits(n / 10);
    }
  }

  /** Reading back the decimal text of an integer gives the integer. */
  lemma ParseIntToString(i: int)
    ensures ParseInt(IntToString(i)) == Some(i)
  {
    var s := IntToString(i);
    if i < 0 {
      var d := NatToDigits(-i);
      DigitsRoundTrip(-i);
      assert s == "-" + d;
      assert s[0] == '-';
      assert s[1..] == d;
    } else {
      DigitsRoundTrip(i);
      assert IsDigit(s[0]);
    }
  }
}
